=== FILE: README.md ===
# Row filter of the sheet viewer

A model of the filtering logic in `sheet.js`. The page loads a spreadsheet into the array
`data`, shows it, and lets the user filter rows by the nullness of chosen columns. The result
goes into `filteredData`. The model covers:

- the text handling of the filter form: `trim`, `toUpperCase` and `split(',')` (module `Text`);
- rows and the strict `=== null` test (module `Rows`);
- the filter predicate and `data.filter(...)` (module `RowFilter`);
- the two-slot state `data` / `filteredData` with load and apply (module `Sheet`);
- worked examples on a three-row sheet (module `Scenarios`).

The filter keeps a row iff every operation column passes its test. The combinator across columns
is always AND (`every`). The operation type only decides whether each column's test is also
gated on the primary column. For operation `'null'` a column passes when its value is `null`.
For any other operation it passes when its value is not `null`. In `'and'` mode the primary
value must match as well: `null` for the null test, not `null` for the other one. Only the exact
strings `'and'` and `'null'` select 'and' mode and the null test.

A key missing from a row reads as `undefined`, and `undefined === null` is false. The model
keeps this literally: a row is a `map<string, Value>`, and a missing key (`k !in row`) is
different from the value `Null`. So a missing operation column never passes the null test. Under
any other operation it passes its own not-null check, but in 'and' mode the primary gate still
applies, so a row whose primary value is `null` is dropped. A missing primary column never opens
the 'and' gate of the null test.

A filter request is always evaluated against `data`, never against the previous
`filteredData`. The primary column text is only trimmed. The operation columns are split on
commas, and each piece is trimmed and upper-cased. A blank field raises an alert and changes
nothing.

## Model

| member | source | states |
|---|---|---|
| `Text.Trim` | sheet.js:60-61 | The result is an infix of the input, everything around it is whitespace, and it neither starts nor ends with whitespace. It is empty iff the input is all whitespace. |
| `Text.TrimOfTrimmed` | sheet.js:60-61 | A text whose ends are not whitespace is left unchanged by trimming. |
| `Text.TrimIdempotent` | sheet.js:60-61 | Trimming twice gives the same as trimming once. |
| `Text.Upper` | sheet.js:70 | The length is unchanged, the result has no lower-case letter, each lower-case letter becomes its capital, and every other character is kept. |
| `Text.UpperOfNoLower` | sheet.js:70 | A text with no lower-case letter is left unchanged by upper-casing. |
| `Text.UpperIdempotent` | sheet.js:70 | Upper-casing twice gives the same as upper-casing once. |
| `Text.Split` | sheet.js:70 | There is one piece more than there are separators, so there is always at least one piece, and no piece contains the separator. |
| `Text.JoinSplit` | sheet.js:70 | Joining the pieces of a split with the separator gives back the original text. |
| `Text.SplitJoin` | sheet.js:70 | Splitting a join of separator-free pieces gives back exactly those pieces. |
| `Text.ParseColumns` | sheet.js:70 | The columns field gives one column per comma plus one, so at least one. Each column is trimmed, has no lower-case letter and contains no comma. |
| `Text.UpperTrimmed` | sheet.js:70 | One column name is trimmed and has no lower-case letter. It is empty iff its piece of the field is all whitespace. |
| `Rows.IsNullAt` | sheet.js:73-74 | A key the row does not have is never `null`: it reads as `undefined`. |
| `RowFilter.ColumnPasses` | sheet.js:77-84 | A column passes iff its nullness is the one the operation asks for (`null` for 'null', not `null` otherwise), and in 'and' mode the primary column's nullness is that one too. |
| `RowFilter.Every` | sheet.js:76 | `every` over a list of columns holds iff each column in it passes. |
| `RowFilter.Keep` | sheet.js:72-86 | A row is kept iff each operation column passes. The columns are combined with AND whatever the operation type says. |
| `Text.UpperKeepsSymbols` | sheet.js:70 | Upper-casing leaves whitespace and commas where they were. |
| `Text.TrimKeepsChars` | sheet.js:70 | Trimming only removes characters: every character of the result occurs in the input. |
| `Text.ParseOneColumn` | sheet.js:70 | A field without commas names exactly one column: its trimmed, upper-cased text. |
| `Text.ParseCanonical` | sheet.js:70 | A comma-joined list of trimmed, upper-case, comma-free names parses back to that list. |
| `Text.ParseJoin` | sheet.js:70 | Parsing a comma-joined field gives, for each comma-free piece in turn, that piece trimmed and upper-cased, whatever whitespace pads it and whatever its case. With `JoinSplit` this describes the parse of every field. |
| `RowFilter.Filter` | sheet.js:72-86 | The result is never longer than the sheet. |
| `RowFilter.KeptFrom` | sheet.js:72 | The kept indices are ascending and in range. They are exactly the indices from `i` on whose rows pass. |
| `RowFilter.KeepNullAnd` | sheet.js:73-81 | For 'null' in 'and' mode with at least one column, a row is kept iff its primary value and every operation column's value are `null`. |
| `RowFilter.KeepNullOr` | sheet.js:80-81 | For 'null' with any other operation type, a row is kept iff every operation column's value is `null`. |
| `RowFilter.KeepNotNull` | sheet.js:82-83 | For any other operation, a row is kept iff no operation column holds `null`, and also, in 'and' mode with at least one column, the primary value is not `null`. |
| `RowFilter.OrModeIgnoresPrimaryValue` | sheet.js:80-84 | Outside 'and' mode, two rows that agree on every operation column are kept or dropped together. |
| `RowFilter.OrModeIgnoresPrimary` | sheet.js:72-86 | Outside 'and' mode, the result does not depend on which primary column is named. |
| `RowFilter.AbsentColumnFailsNull` | sheet.js:77-78 | A row that lacks one of the operation columns is never kept by the 'null' operation, because a missing key is not `null`. |
| `RowFilter.AbsentColumnPassesNotNull` | sheet.js:77-83 | Under any other operation, a missing operation column passes its own test unless the 'and' gate fails on a `null` primary. |
| `RowFilter.AbsentEverywhereEmptiesNull` | sheet.js:72-86 | If an operation column is missing from every row, the 'null' operation keeps nothing. |
| `RowFilter.FilterMembership` | sheet.js:72 | A row is in the result iff it is in the sheet and passes. |
| `RowFilter.FilterIsSubsequence` | sheet.js:72 | The result is a subsequence of the sheet, so rows keep their order. |
| `RowFilter.FilterSuffixByIndices` | sheet.js:72 | Filtering a suffix of the sheet gives exactly the rows at the kept indices of that suffix, in order. |
| `RowFilter.ConsByIndices` | sheet.js:72 | Putting row `i` in front of a result read off indices `ix` gives the result read off `[i] + ix`. |
| `RowFilter.FilterByIndices` | sheet.js:72 | The result is exactly the rows at the kept indices, in ascending order: nothing reordered, duplicated or wrongly dropped. |
| `RowFilter.FilterAppend` | sheet.js:72 | Filtering a concatenation gives the concatenation of the filtered parts. |
| `RowFilter.FilterIdempotent` | sheet.js:72 | Filtering a filtered sheet again with the same request changes nothing. |
| `RowFilter.EveryColumn` | sheet.js:76-85 | The short-circuiting loop over the columns returns true iff every column passes. |
| `RowFilter.FilterRows` | sheet.js:72-86 | The single pass that appends each passing row computes the filter, and its result is a subsequence of the sheet. |
| `Rows.SubsequenceReflexive` | sheet.js:14 | The copy made at load time is a subsequence of the sheet. |
| `Rows.SubsequenceElements` | sheet.js:72 | A subsequence is no longer than the sequence and takes all its elements from it. |
| `Sheet.Load` | sheet.js:13-20 | A successful load sets `data` to the parsed rows and `filteredData` to the same rows. A failed load leaves the state as it was. |
| `Sheet.SpecOf` | sheet.js:60-70 | The primary column is the trimmed field and keeps its case. There is at least one operation column, each trimmed with no lower-case letter. 'and' mode and the null test are chosen only by the exact words `and` and `null`. |
| `Sheet.RefusedIffTrimmedEmpty` | sheet.js:60-65 | `Refused`, the whitespace-only test on the two fields, holds iff either field is empty after trimming, which is the test the source makes before alerting. |
| `Sheet.Apply` | sheet.js:59-86 | The alert is raised iff either text field is all whitespace, and then nothing changes. `data` is never changed. Otherwise the table shows exactly the rows of `data` at the kept indices, in order: a subsequence of `data` holding just the rows that pass. |
| `Sheet.Step` | sheet.js:122-130 | Only a successful load replaces `data`, with the parsed rows. Every event keeps the table a subsequence of the sheet. |
| `Sheet.Run` | sheet.js:122-130 | Each successful load overwrites `data`: after any sequence of events, `data` is the rows of the last successful load in it, or the starting `data` if there was none. |
| `Sheet.LoadEstablishesValid` | sheet.js:13-14 | After a successful load the table shows the whole sheet, and the state invariant holds. |
| `Sheet.RunKeepsValid` | sheet.js:72 | Any sequence of loads and filter requests keeps the table a subsequence of the sheet. |
| `Sheet.ReachableIsValid` | sheet.js:1-2 | Starting from the two empty arrays, every reachable state satisfies the invariant. |
| `Sheet.RunWithoutLoadKeepsData` | sheet.js:72 | Filter requests alone never change `data`. |
| `Sheet.ApplyForgetsPreviousFilter` | sheet.js:72 | An accepted request gives the same state whatever request came before it. Filters do not chain. |
| `Sheet.ApplyDependsOnlyOnData` | sheet.js:72 | Two states with the same `data` give the same result for an accepted request. |
| `Sheet.ApplyIdempotent` | sheet.js:72 | Repeating a request leaves the state unchanged. |
| `Scenarios.FilterOfThree` | sheet.js:72 | On three rows, the filter keeps the passing ones in order. |
| `Scenarios.KeepOneColumn` | sheet.js:76 | With one operation column, a row is kept iff that column passes. |
| `Scenarios.CanonicalForm` | sheet.js:60-72 | A form with non-empty, already trimmed fields is accepted and shows the filter of the columns its field parses to. |
| `Scenarios.FormShowsB` | sheet.js:59-86 | The form with primary `A` and columns field `B` is accepted and shows the filter on column `B`. |
| `Scenarios.FormShowsBC` | sheet.js:59-86 | The form with primary `A` and columns field `B,C` shows the filter on columns `B` and `C`. |
| `Scenarios.ShownIsFilter` | sheet.js:72 | For an accepted form, the table after loading the sample is the filter of the sample. |
| `Scenarios.ParseB` | sheet.js:70 | The field `B` names the column `B`. |
| `Scenarios.ParseBC` | sheet.js:70 | The field `B,C` names the columns `B` and `C`. |
| `Scenarios.FilterNullAnd` | sheet.js:80-81 | 'null' in 'and' mode on B keeps only the row where A and B are both `null`. |
| `Scenarios.FilterNullOr` | sheet.js:80-81 | 'null' in 'or' mode on B keeps the rows where B is `null`, whatever A holds. |
| `Scenarios.FilterNotNullAnd` | sheet.js:82-83 | 'not-null' in 'and' mode on B keeps nothing, because no sample row has both A and B set. |
| `Scenarios.FilterNotNullOr` | sheet.js:82-83 | 'not-null' in 'or' mode on B keeps the row where B is set. |
| `Scenarios.FilterNotNullOrAbsentColumn` | sheet.js:77-83 | 'not-null' in 'or' mode on B and a column C that no row has keeps the row where B is set. |
| `Scenarios.FilterLowerCasePrimary` | sheet.js:73-81 | Primary `a` names no key of the sample, so 'null' in 'and' mode keeps nothing. |
| `Scenarios.NullAndKeepsBothNull` | sheet.js:59-86 | The form request 'null'/'and' with primary `A` and columns `B` shows only the row where A and B are both `null`. |
| `Scenarios.NullOrIgnoresPrimary` | sheet.js:59-86 | The form request 'null'/'or' on `B` shows both rows where B is `null`. |
| `Scenarios.NotNullAndKeepsNone` | sheet.js:59-86 | The form request 'not-null'/'and' on `B` shows nothing. |
| `Scenarios.AbsentColumnPassesNotNullScenario` | sheet.js:59-86 | The form request 'not-null'/'or' on `B,C` shows the row where B is set, even though no row has C. |
| `Scenarios.SecondRequestStartsFromData` | sheet.js:72 | Filtering for B `null` and then for B not `null` still shows the row where B is set. |
| `Scenarios.PrimaryKeepsItsCase` | sheet.js:60 | The primary column `a` is not upper-cased, so it does not name the key `A`. |
| `Scenarios.BlankFieldIsRefused` | sheet.js:65-68 | A blank columns field raises the alert and leaves the loaded state unchanged. |
| `Scenarios.PaddedForm` | sheet.js:60-70 | A form whose fields are a primary name and one column name, each padded with a space, asks for the filter on the primary name with its case kept and on the upper-cased column name. |
| `Scenarios.PaddedLowerCaseForm` | sheet.js:59-86 | The form request 'null'/'and' with fields ` A ` and ` b ` shows only the row where A and B are both `null`, as `A` and `B` would. |

## Missing keys are not `null`

`sheet.js` compares with `=== null`, and a missing key yields `undefined`, so a missing key
never counts as `null`. Two consequences:

- A column that no row has empties the result of the null test (`RowFilter.AbsentEverywhereEmptiesNull`).
- Under the not-null test that column passes its own check in every row, subject only to the
  primary gate in 'and' mode. So 'not-null'/'or' on `B,C` with `C` missing everywhere keeps the
  rows where B is set (`Scenarios.AbsentColumnPassesNotNullScenario`).

The not-null test therefore does not require the column to be present, only that it is not
`null` (`RowFilter.KeepNotNull`).

## Left out

- Fetching the file and parsing the workbook (`fetch`, `XLSX.read`, `sheet_to_json`) are outside the model. `Sheet.Load` receives their outcome, parsed rows or a failure. The `defval: null` option makes every blank cell a key holding `null`, so in loaded rows a key is missing only when it names no column of the sheet. The model accepts any rows, so it also covers rows with keys missing.
- The failed-load path logs to the console. The model keeps only its effect, that the state is unchanged.
- `displaySheet` is presentation only: the table markup, the `NULL` marker and the "No data available" message.
- The alert is modelled as a flag in `Sheet.Applied`. The message text and the dialog are left out.
- The download modal, `handleDownload` with `json_to_sheet` and `writeFile`, the event listeners and `window.onload` are UI wiring and library calls.
- Aliasing of the arrays is not modelled. `[...data]` makes a shallow copy, and rows are never mutated in the model, so a copy and the original are equal values.
- Spreadsheet numbers are modelled as integers. The filter only asks whether a value is `null`.
- Text.Trim: handles only ASCII whitespace (space, tab, line feed, carriage return, vertical tab, form feed). JavaScript's `trim` also removes other Unicode spaces and line terminators.
- Text.Upper: maps only the ASCII letters `a`-`z`. JavaScript's `toUpperCase` follows full Unicode case mapping.
- A column name that contains a comma cannot be written in the operation-columns field. That follows from the source, so it is not a gap in the model.

=== FILE: row_filter.dfy ===
/**
 The row-filtering rule of applyOperation: which rows of the loaded sheet
 survive a filter request.

 For every operation column the row is tested on that column's nullness;
 in 'and' mode each of those tests is also gated on the primary column's
 nullness. The tests of the different columns are always combined with
 AND (`every`), whatever the operation type says.
 */
module RowFilter {
  import opened Rows

  /** A parsed filter request. `isAnd` is `operationType === 'and'` and
      `isNullOp` is `operation === 'null'`; every other value of either
      field means the opposite. */
  datatype Spec = Spec(primary: string, columns: seq<string>, isAnd: bool, isNullOp: bool)

  /** The test one operation column `col` applies to a row, as the source
      writes it. Put differently: the column's nullness must be the one the
      operation asks for, and in 'and' mode so must the primary column's. */
  function ColumnPasses(spec: Spec, row: Row, col: string): (pass: bool)
    ensures pass <==>
              && IsNullAt(row, col) == spec.isNullOp
              && (spec.isAnd ==> IsNullAt(row, spec.primary) == spec.isNullOp)
  {
    var isPrimaryNull := IsNullAt(row, spec.primary);
    var isColNull := IsNullAt(row, col);
    if spec.isNullOp then
      isColNull && (if spec.isAnd then isPrimaryNull else true)
    else
      !isColNull && (if spec.isAnd then !isPrimaryNull else true)
  }

  /** `cols.every(col => ColumnPasses(spec, row, col))`, column by column:
      it holds iff each column passes. */
  function Every(spec: Spec, row: Row, cols: seq<string>): (all: bool)
    ensures all <==> forall i :: 0 <= i < |cols| ==> ColumnPasses(spec, row, cols[i])
  {
    if |cols| == 0 then true
    else
      assert forall i :: 1 <= i < |cols| ==> cols[i] == cols[1..][i - 1];
      ColumnPasses(spec, row, cols[0]) && Every(spec, row, cols[1..])
  }

  /** The predicate handed to `data.filter`: the tests of the operation
      columns are combined with AND, whatever the operation type says. */
  function Keep(spec: Spec, row: Row): (keep: bool)
    ensures keep <==> forall i :: 0 <= i < |spec.columns| ==> ColumnPasses(spec, row, spec.columns[i])
  {
    Every(spec, row, spec.columns)
  }

  /** What one row contributes to the result: itself if it passes. */
  function KeptRow(spec: Spec, row: Row): (kept: seq<Row>)
    ensures kept == [row] || kept == []
  {
    if Keep(spec, row) then [row] else []
  }

  /** `data.filter(row => Keep(spec, row))`. */
  function Filter(data: seq<Row>, spec: Spec): (kept: seq<Row>)
    ensures |kept| <= |data|
  {
    if |data| == 0 then [] else KeptRow(spec, data[0]) + Filter(data[1..], spec)
  }

  /** The indices `i <= j < |data|` whose row the filter keeps, ascending. */
  function KeptFrom(data: seq<Row>, spec: Spec, i: nat): (ix: seq<nat>)
    requires i <= |data|
    ensures forall k :: 0 <= k < |ix| ==> i <= ix[k] < |data| && Keep(spec, data[ix[k]])
    ensures forall k, l :: 0 <= k < l < |ix| ==> ix[k] < ix[l]
    ensures forall j :: i <= j < |data| && Keep(spec, data[j]) ==> j in ix
    decreases |data| - i
  {
    if i == |data| then []
    else if Keep(spec, data[i]) then [i] + KeptFrom(data, spec, i + 1)
    else KeptFrom(data, spec, i + 1)
  }

  /** The indices of all rows that pass, in ascending order. */
  function KeptIndices(data: seq<Row>, spec: Spec): seq<nat> {
    KeptFrom(data, spec, 0)
  }

  // ---------------------------------------------------------------------
  // The predicate

  /** 'null' with 'and': a row stays iff its primary value and every
      operation column's value are `null`. */
  lemma KeepNullAnd(spec: Spec, row: Row)
    requires spec.isNullOp && spec.isAnd && |spec.columns| > 0
    ensures Keep(spec, row) <==>
              IsNullAt(row, spec.primary) && forall i :: 0 <= i < |spec.columns| ==> IsNullAt(row, spec.columns[i])
  {
  }

  /** 'null' with any other operation type: a row stays iff every operation
      column's value is `null`; the primary column plays no part. */
  lemma KeepNullOr(spec: Spec, row: Row)
    requires spec.isNullOp && !spec.isAnd
    ensures Keep(spec, row) <==> forall i :: 0 <= i < |spec.columns| ==> IsNullAt(row, spec.columns[i])
  {
  }

  /** Any operation other than 'null': a row stays iff no operation column
      holds `null`, and, in 'and' mode, the primary value is not `null`.
      A missing key is not `null`, so it passes on either side. */
  lemma KeepNotNull(spec: Spec, row: Row)
    requires !spec.isNullOp
    ensures Keep(spec, row) <==>
              && (forall i :: 0 <= i < |spec.columns| ==> !IsNullAt(row, spec.columns[i]))
              && (spec.isAnd && |spec.columns| > 0 ==> !IsNullAt(row, spec.primary))
  {
  }

  /** Outside 'and' mode, two rows that agree on every operation column are
      kept or dropped together, however their primary values differ. */
  lemma OrModeIgnoresPrimaryValue(spec: Spec, r1: Row, r2: Row)
    requires !spec.isAnd
    requires forall i :: 0 <= i < |spec.columns| ==> AgreeAt(r1, r2, spec.columns[i])
    ensures Keep(spec, r1) <==> Keep(spec, r2)
  {
  }

  /** A key missing from the row is `undefined`, not `null`: a row that
      lacks one of the operation columns never survives the 'null'
      operation. */
  lemma AbsentColumnFailsNull(spec: Spec, row: Row, col: string)
    requires spec.isNullOp && col in spec.columns && col !in row
    ensures !Keep(spec, row)
  {
    var i :| 0 <= i < |spec.columns| && spec.columns[i] == col;
    assert !ColumnPasses(spec, row, spec.columns[i]);
  }

  /** ... and for any other operation a missing operation column passes its
      own test, except for the primary gate of 'and' mode. */
  lemma AbsentColumnPassesNotNull(spec: Spec, row: Row, col: string)
    requires !spec.isNullOp && col !in row
    ensures ColumnPasses(spec, row, col) <==> !(spec.isAnd && IsNullAt(row, spec.primary))
  {
  }

  /** A column missing from every row empties the result of the 'null'
      operation. */
  lemma AbsentEverywhereEmptiesNull(data: seq<Row>, spec: Spec, col: string)
    requires spec.isNullOp && col in spec.columns
    requires forall j :: 0 <= j < |data| ==> col !in data[j]
    ensures Filter(data, spec) == []
  {
    var kept := Filter(data, spec);
    if kept != [] {
      FilterMembership(data, spec, kept[0]);
      assert false;
    }
  }

  // ---------------------------------------------------------------------
  // The filter

  /** The result holds exactly the rows of `data` that pass. */
  lemma {:induction false} FilterMembership(data: seq<Row>, spec: Spec, x: Row)
    ensures x in Filter(data, spec) <==> x in data && Keep(spec, x)
  {
    if |data| > 0 {
      FilterMembership(data[1..], spec, x);
      assert x in data <==> x == data[0] || x in data[1..];
    }
  }

  /** The result is a subsequence of `data`: rows keep their original order. */
  lemma {:induction false} FilterIsSubsequence(data: seq<Row>, spec: Spec)
    ensures IsSubsequence(Filter(data, spec), data)
  {
    if |data| > 0 {
      var rest := Filter(data[1..], spec);
      FilterIsSubsequence(data[1..], spec);
      if Keep(spec, data[0]) {
        assert Filter(data, spec) == [data[0]] + rest;
        assert ([data[0]] + rest)[1..] == rest;
      } else {
        assert Filter(data, spec) == rest;
      }
    }
  }

  /** Position `k` of `Filter(data[i..])` holds the row at the `k`-th kept
      index at or after `i`. */
  lemma {:induction false} FilterSuffixByIndices(data: seq<Row>, spec: Spec, i: nat)
    requires i <= |data|
    ensures |Filter(data[i..], spec)| == |KeptFrom(data, spec, i)|
    ensures forall k :: 0 <= k < |KeptFrom(data, spec, i)| ==>
              Filter(data[i..], spec)[k] == data[KeptFrom(data, spec, i)[k]]
    decreases |data| - i
  {
    if i < |data| {
      FilterSuffixByIndices(data, spec, i + 1);
      var rest := Filter(data[i + 1..], spec);
      var ix := KeptFrom(data, spec, i + 1);
      assert data[i..][1..] == data[i + 1..];
      assert Filter(data[i..], spec) == KeptRow(spec, data[i]) + rest;
      if Keep(spec, data[i]) {
        ConsByIndices(data, i, rest, ix);
      }
    }
  }

  /** Prepending row `i` to a result read off the indices `ix` gives the
      result read off `[i] + ix`. */
  lemma ConsByIndices(data: seq<Row>, i: nat, rest: seq<Row>, ix: seq<nat>)
    requires i < |data| && |rest| == |ix|
    requires forall k :: 0 <= k < |ix| ==> ix[k] < |data| && rest[k] == data[ix[k]]
    ensures forall k :: 0 <= k < |ix| + 1 ==> ([data[i]] + rest)[k] == data[([i] + ix)[k]]
  {
    forall k | 0 <= k < |ix| + 1
      ensures ([data[i]] + rest)[k] == data[([i] + ix)[k]]
    {
      if k > 0 {
        assert ([data[i]] + rest)[k] == rest[k - 1];
        assert ([i] + ix)[k] == ix[k - 1];
      }
    }
  }

  /** The result is exactly the rows at the kept indices, in ascending index
      order: nothing reordered, nothing duplicated, nothing passing left out. */
  lemma FilterByIndices(data: seq<Row>, spec: Spec)
    ensures |Filter(data, spec)| == |KeptIndices(data, spec)|
    ensures forall k :: 0 <= k < |KeptIndices(data, spec)| ==>
              Filter(data, spec)[k] == data[KeptIndices(data, spec)[k]]
  {
    FilterSuffixByIndices(data, spec, 0);
    assert data[0..] == data;
  }

  /** Filtering distributes over concatenation. */
  lemma {:induction false} FilterAppend(a: seq<Row>, b: seq<Row>, spec: Spec)
    ensures Filter(a + b, spec) == Filter(a, spec) + Filter(b, spec)
  {
    if |a| == 0 {
      assert a + b == b;
    } else {
      var ab := a + b;
      assert ab[1..] == a[1..] + b;
      assert ab[0] == a[0];
      var head, fa, fb := KeptRow(spec, a[0]), Filter(a[1..], spec), Filter(b, spec);
      FilterAppend(a[1..], b, spec);
      FilterHead(ab, spec);
      FilterHead(a, spec);
      ConcatAssoc(head, fa, fb);
    }
  }

  lemma ConcatAssoc<T>(x: seq<T>, y: seq<T>, z: seq<T>)
    ensures x + (y + z) == (x + y) + z
  {
  }

  /** One step of the filter: the first row's contribution, then the rest. */
  lemma FilterHead(data: seq<Row>, spec: Spec)
    requires |data| > 0
    ensures Filter(data, spec) == KeptRow(spec, data[0]) + Filter(data[1..], spec)
  {
  }

  /** Filtering an already filtered sheet with the same request changes
      nothing. */
  lemma {:induction false} FilterIdempotent(data: seq<Row>, spec: Spec)
    ensures Filter(Filter(data, spec), spec) == Filter(data, spec)
  {
    if |data| > 0 {
      FilterIdempotent(data[1..], spec);
      var rest := Filter(data[1..], spec);
      if Keep(spec, data[0]) {
        assert Filter(data, spec) == [data[0]] + rest;
        assert ([data[0]] + rest)[1..] == rest;
      } else {
        assert Filter(data, spec) == rest;
      }
    }
  }

  /** Outside 'and' mode the primary column does not influence the result. */
  lemma {:induction false} OrModeIgnoresPrimary(data: seq<Row>, spec: Spec, other: string)
    requires !spec.isAnd
    ensures Filter(data, spec) == Filter(data, spec.(primary := other))
  {
    if |data| > 0 {
      OrModeIgnoresPrimary(data[1..], spec, other);
    }
  }

  // ---------------------------------------------------------------------
  // The loops of the source, `every` and `filter`

  /** `operationColumns.every(...)`: stops at the first failing column. */
  method EveryColumn(spec: Spec, row: Row) returns (pass: bool)
    ensures pass <==> forall i :: 0 <= i < |spec.columns| ==> ColumnPasses(spec, row, spec.columns[i])
    ensures pass == Keep(spec, row)
  {
    var i := 0;
    while i < |spec.columns|
      invariant 0 <= i <= |spec.columns|
      invariant forall j :: 0 <= j < i ==> ColumnPasses(spec, row, spec.columns[j])
    {
      if !ColumnPasses(spec, row, spec.columns[i]) {
        return false;
      }
      i := i + 1;
    }
    return true;
  }

  /** `data.filter(...)`: one pass over the rows, appending each survivor. */
  method FilterRows(data: seq<Row>, spec: Spec) returns (kept: seq<Row>)
    ensures kept == Filter(data, spec)
    ensures IsSubsequence(kept, data)
  {
    kept := [];
    var i := 0;
    while i < |data|
      invariant 0 <= i <= |data|
      invariant kept == Filter(data[..i], spec)
    {
      var pass := EveryColumn(spec, data[i]);
      FilterAppend(data[..i], [data[i]], spec);
      assert data[..i + 1] == data[..i] + [data[i]];
      if pass {
        kept := kept + [data[i]];
      }
      i := i + 1;
    }
    assert data[..i] == data;
    FilterIsSubsequence(data, spec);
  }
}

=== FILE: rows.dfy ===
/**
 The rows of a loaded sheet. A row is the object `sheet_to_json` produces:
 column name to cell value. A key the row does not have reads as
 JavaScript's `undefined`, which is not the cell value `null`.
 */
module Rows {

  /** A cell value. Spreadsheet numbers are abstracted to integers; the
      filter never looks at a value beyond asking whether it is `null`. */
  datatype Value = Null | Str(s: string) | Num(n: int) | Bool(b: bool)

  type Row = map<string, Value>

  /** `row[key] === null`: the key is present and holds `null`. A missing
      key yields `undefined`, and strict equality does not equate it with
      `null`. */
  function IsNullAt(row: Row, key: string): (isNull: bool)
    ensures key !in row ==> !isNull
  {
    key in row && row[key] == Null
  }

  /** The two rows hold the same thing under `key`, or both lack it. */
  predicate AgreeAt(r1: Row, r2: Row, key: string) {
    (key in r1 <==> key in r2) && (key in r1 ==> r1[key] == r2[key])
  }

  /** `a` can be obtained from `b` by deleting elements: its elements occur
      in `b` in the same order. */
  predicate IsSubsequence<T(==)>(a: seq<T>, b: seq<T>)
    decreases |b|
  {
    if |a| == 0 then true
    else if |b| == 0 then false
    else (a[0] == b[0] && IsSubsequence(a[1..], b[1..])) || IsSubsequence(a, b[1..])
  }

  /** Every sequence is a subsequence of itself. */
  lemma {:induction false} SubsequenceReflexive<T>(a: seq<T>)
    ensures IsSubsequence(a, a)
  {
    if |a| > 0 {
      SubsequenceReflexive(a[1..]);
    }
  }

  /** A subsequence is no longer than the sequence and draws every element
      from it. */
  lemma {:induction false} SubsequenceElements<T>(a: seq<T>, b: seq<T>)
    requires IsSubsequence(a, b)
    ensures |a| <= |b|
    ensures forall x :: x in a ==> x in b
    decreases |b|
  {
    if |a| > 0 {
      if a[0] == b[0] && IsSubsequence(a[1..], b[1..]) {
        SubsequenceElements(a[1..], b[1..]);
        assert forall x :: x in a ==> x == a[0] || x in a[1..];
        assert forall x :: x in b[1..] ==> x in b;
      } else {
        SubsequenceElements(a, b[1..]);
        assert forall x :: x in b[1..] ==> x in b;
      }
    }
  }
}

=== FILE: scenarios.dfy ===
/**
 Worked examples on a three-row sheet. The first group applies the filter
 to the rows directly; the second group goes through the whole page: load
 the rows into the store, then apply one request typed into the form.
 */
module Scenarios {
  import opened Text
  import opened Rows
  import opened RowFilter
  import opened Sheet

  const r1: Row := map["A" := Num(1), "B" := Null]
  const r2: Row := map["A" := Null, "B" := Num(2)]
  const r3: Row := map["A" := Null, "B" := Null]

  function Loaded(): Store {
    Load(Initial(), Parsed([r1, r2, r3]))
  }

  /** The table after applying `f` to the freshly loaded sheet. */
  function Shown(f: Form): seq<Row> {
    Apply(Loaded(), f).store.filtered
  }

  /** The filter on a three-row sheet, unfolded. */
  lemma FilterOfThree(a: Row, b: Row, c: Row, spec: Spec)
    ensures Filter([a, b, c], spec) == KeptRow(spec, a) + KeptRow(spec, b) + KeptRow(spec, c)
  {
    assert [a, b, c][1..] == [b, c];
    assert [b, c][1..] == [c];
    assert [c][1..] == [];
    assert Filter([c], spec) == KeptRow(spec, c) + Filter([], spec);
    assert Filter([b, c], spec) == KeptRow(spec, b) + Filter([c], spec);
  }

  /** A single-column request keeps a row iff that column's test passes. */
  lemma KeepOneColumn(spec: Spec, row: Row)
    requires |spec.columns| == 1
    ensures Keep(spec, row) <==> ColumnPasses(spec, row, spec.columns[0])
  {
    assert spec.columns[1..] == [];
    assert Every(spec, row, []);
  }

  /** An accepted form shows the filter of the loaded rows. */
  lemma ShownIsFilter(f: Form)
    requires !Refused(f)
    ensures Shown(f) == Filter([r1, r2, r3], SpecOf(f))
  {
  }

  /** The operation-columns field "B" names column `B`. */
  lemma ParseB()
    ensures ParseColumns("B") == ["B"]
  {
    assert IsTrimmed("B") && NoLower("B");
    ParseCanonical(["B"]);
  }

  /** The operation-columns field "B,C" names columns `B` and `C`. */
  lemma ParseBC()
    ensures ParseColumns("B,C") == ["B", "C"]
  {
    assert IsTrimmed("B") && NoLower("B");
    assert IsTrimmed("C") && NoLower("C");
    assert Join(["B", "C"], ',') == "B,C" by {
      assert ["B", "C"][1..] == ["C"];
    }
    ParseCanonical(["B", "C"]);
  }

  /** A form whose two text fields are already trimmed and not empty is
      accepted; it asks for the columns the columns field parses to. */
  lemma CanonicalForm(f: Form, cols: seq<string>)
    requires IsTrimmed(f.primaryColumn) && f.primaryColumn != []
    requires IsTrimmed(f.operationColumns) && f.operationColumns != []
    requires ParseColumns(f.operationColumns) == cols
    ensures !Refused(f)
    ensures Shown(f) == Filter([r1, r2, r3], Spec(f.primaryColumn, cols, f.operationType == "and", f.operation == "null"))
  {
    TrimOfTrimmed(f.primaryColumn);
    TrimOfTrimmed(f.operationColumns);
  }

  // ---------------------------------------------------------------------
  // The filter on the sample rows

  /** 'null' with 'and' on B: only the row whose A and B are both `null`. */
  lemma FilterNullAnd()
    ensures Filter([r1, r2, r3], Spec("A", ["B"], true, true)) == [r3]
  {
    var spec := Spec("A", ["B"], true, true);
    assert !Keep(spec, r1) by { KeepOneColumn(spec, r1); }
    assert !Keep(spec, r2) by { KeepOneColumn(spec, r2); }
    assert Keep(spec, r3) by { KeepOneColumn(spec, r3); }
    FilterOfThree(r1, r2, r3, spec);
  }

  /** 'null' with 'or' on B: the rows where B is `null`, whatever A holds. */
  lemma FilterNullOr()
    ensures Filter([r1, r2, r3], Spec("A", ["B"], false, true)) == [r1, r3]
  {
    var spec := Spec("A", ["B"], false, true);
    assert Keep(spec, r1) by { KeepOneColumn(spec, r1); }
    assert !Keep(spec, r2) by { KeepOneColumn(spec, r2); }
    assert Keep(spec, r3) by { KeepOneColumn(spec, r3); }
    FilterOfThree(r1, r2, r3, spec);
  }

  /** 'not-null' with 'and' on B: no row has both A and B set. */
  lemma FilterNotNullAnd()
    ensures Filter([r1, r2, r3], Spec("A", ["B"], true, false)) == []
  {
    var spec := Spec("A", ["B"], true, false);
    assert !Keep(spec, r1) by { KeepOneColumn(spec, r1); }
    assert !Keep(spec, r2) by { KeepOneColumn(spec, r2); }
    assert !Keep(spec, r3) by { KeepOneColumn(spec, r3); }
    FilterOfThree(r1, r2, r3, spec);
  }

  /** 'not-null' with 'or' on B and C, where no row has a C key: the missing
      key is `undefined`, which passes the not-null test, so the row with B
      set survives. */
  lemma FilterNotNullOrAbsentColumn()
    ensures Filter([r1, r2, r3], Spec("A", ["B", "C"], false, false)) == [r2]
  {
    var spec := Spec("A", ["B", "C"], false, false);
    assert !Keep(spec, r1);
    assert Keep(spec, r2);
    assert !Keep(spec, r3);
    FilterOfThree(r1, r2, r3, spec);
  }

  /** 'not-null' with 'or' on B: the row where B is set. */
  lemma FilterNotNullOr()
    ensures Filter([r1, r2, r3], Spec("A", ["B"], false, false)) == [r2]
  {
    var spec := Spec("A", ["B"], false, false);
    assert !Keep(spec, r1) by { KeepOneColumn(spec, r1); }
    assert Keep(spec, r2) by { KeepOneColumn(spec, r2); }
    assert !Keep(spec, r3) by { KeepOneColumn(spec, r3); }
    FilterOfThree(r1, r2, r3, spec);
  }

  /** 'null' with 'and' and primary `a`: the rows have no key `a`, and a
      missing primary is not `null`, so the gate never opens. */
  lemma FilterLowerCasePrimary()
    ensures Filter([r1, r2, r3], Spec("a", ["B"], true, true)) == []
  {
    var spec := Spec("a", ["B"], true, true);
    assert !Keep(spec, r1) by { KeepOneColumn(spec, r1); }
    assert !Keep(spec, r2) by { KeepOneColumn(spec, r2); }
    assert !Keep(spec, r3) by { KeepOneColumn(spec, r3); }
    FilterOfThree(r1, r2, r3, spec);
  }

  // ---------------------------------------------------------------------
  // The same requests typed into the form

  /** A form with primary `A` and columns field `B` shows the filter on
      column `B`. */
  lemma FormShowsB(f: Form)
    requires f.primaryColumn == "A" && f.operationColumns == "B"
    ensures !Refused(f)
    ensures Shown(f) == Filter([r1, r2, r3], Spec("A", ["B"], f.operationType == "and", f.operation == "null"))
  {
    assert IsTrimmed("A") && IsTrimmed("B");
    ParseB();
    CanonicalForm(f, ["B"]);
  }

  /** A form with primary `A` and columns field `B,C` shows the filter on
      columns `B` and `C`. */
  lemma FormShowsBC(f: Form)
    requires f.primaryColumn == "A" && f.operationColumns == "B,C"
    ensures !Refused(f)
    ensures Shown(f) == Filter([r1, r2, r3], Spec("A", ["B", "C"], f.operationType == "and", f.operation == "null"))
  {
    assert IsTrimmed("A") && IsTrimmed("B,C");
    ParseBC();
    CanonicalForm(f, ["B", "C"]);
  }

  /** The 'null'/'and' request on B, typed into the form. */
  lemma NullAndKeepsBothNull()
    ensures Shown(Form("A", "B", "and", "null")) == [r3]
  {
    FormShowsB(Form("A", "B", "and", "null"));
    FilterNullAnd();
  }

  /** The 'null'/'or' request on B, typed into the form. */
  lemma NullOrIgnoresPrimary()
    ensures Shown(Form("A", "B", "or", "null")) == [r1, r3]
  {
    FormShowsB(Form("A", "B", "or", "null"));
    FilterNullOr();
  }

  /** The 'not-null'/'and' request on B, typed into the form. */
  lemma NotNullAndKeepsNone()
    ensures Shown(Form("A", "B", "and", "not-null")) == []
  {
    FormShowsB(Form("A", "B", "and", "not-null"));
    FilterNotNullAnd();
  }

  /** The 'not-null'/'or' request on B and the missing column C, typed into
      the form. */
  lemma AbsentColumnPassesNotNullScenario()
    ensures Shown(Form("A", "B,C", "or", "not-null")) == [r2]
  {
    FormShowsBC(Form("A", "B,C", "or", "not-null"));
    FilterNotNullOrAbsentColumn();
  }

  /** The second request is not applied to the output of the first:
      filtering for B `null` and then for B not `null` still shows the row
      with B set. */
  lemma SecondRequestStartsFromData()
    ensures Apply(Apply(Loaded(), Form("A", "B", "or", "null")).store, Form("A", "B", "or", "not-null")).store.filtered == [r2]
  {
    var first := Apply(Loaded(), Form("A", "B", "or", "null")).store;
    var f := Form("A", "B", "or", "not-null");
    FormShowsB(f);
    ApplyDependsOnlyOnData(first, Loaded(), f);
    FilterNotNullOr();
  }

  /** The primary column keeps its case while the operation columns are
      upper-cased: primary `a` does not name the key `A`, so the null test
      in 'and' mode shows nothing. */
  lemma PrimaryKeepsItsCase()
    ensures Shown(Form("a", "B", "and", "null")) == []
  {
    assert Shown(Form("a", "B", "and", "null")) == Filter([r1, r2, r3], Spec("a", ["B"], true, true)) by {
      assert IsTrimmed("a") && IsTrimmed("B");
      ParseB();
      CanonicalForm(Form("a", "B", "and", "null"), ["B"]);
    }
    FilterLowerCasePrimary();
  }

  /** A blank field raises the alert and the table stays as loaded. */
  lemma BlankFieldIsRefused()
    ensures Apply(Loaded(), Form("A", "  ", "and", "null")) == Applied(Loaded(), true)
  {
    assert AllSpace("  ");
  }

  /** One space on either side of a trimmed text is removed by `trim`. */
  lemma TrimPadded(s: string)
    requires IsTrimmed(s) && s != []
    ensures Trim([' '] + s + [' ']) == s
  {
    var p := [' '] + s + [' '];
    assert p[1..] == s + [' '];
    assert TrimStart(p) == s + [' '];
    assert (s + [' '])[..|s|] == s;
    assert TrimEnd(s + [' ']) == s;
  }

  /** A form whose two fields are a trimmed primary `p` and a trimmed,
      comma-free column name `c`, each padded with one space, asks for the
      filter on primary `p`, with its case kept, and on the single column
      `c` upper-cased. */
  lemma PaddedForm(f: Form, p: string, c: string)
    requires IsTrimmed(p) && p != [] && f.primaryColumn == [' '] + p + [' ']
    requires IsTrimmed(c) && c != [] && ',' !in c && f.operationColumns == [' '] + c + [' ']
    ensures !Refused(f)
    ensures Shown(f) == Filter([r1, r2, r3], Spec(p, [Upper(c)], f.operationType == "and", f.operation == "null"))
  {
    TrimPadded(p);
    TrimPadded(c);
    ParseOneColumn(c);
    TrimOfTrimmed(c);
    assert SpecOf(f) == Spec(p, [Upper(c)], f.operationType == "and", f.operation == "null");
    ShownIsFilter(f);
  }

  /** The 'null'/'and' request on B typed with padding and in lower case:
      " A " and " b " ask for the same filter as "A" and "B". */
  lemma PaddedLowerCaseForm()
    ensures Shown(Form(" A ", " b ", "and", "null")) == [r3]
  {
    var f := Form(" A ", " b ", "and", "null");
    assert IsTrimmed("A") && IsTrimmed("b");
    assert f.primaryColumn == [' '] + "A" + [' '];
    assert f.operationColumns == [' '] + "b" + [' '];
    PaddedForm(f, "A", "b");
    assert Upper("b") == "B";
    FilterNullAnd();
  }
}

=== FILE: sheet.dfy ===
/**
 The page state of sheet.js, the two global arrays `data` (the sheet as
 loaded) and `filteredData` (what the table shows), and the two operations
 that change them: loading the sheet and applying a filter request.

 The fetch and the spreadsheet parser are outside the model: `Load`
 receives their outcome, either the parsed rows or a failure.
 */
module Sheet {
  import opened Text
  import opened Rows
  import opened RowFilter

  datatype Store = Store(data: seq<Row>, filtered: seq<Row>)

  /** Both arrays start empty. */
  function Initial(): Store {
    Store([], [])
  }

  /** What fetching and parsing the sheet produced. */
  datatype Parsed = Parsed(rows: seq<Row>) | LoadFailed

  /** loadExcelSheet: on success `data` becomes the parsed rows and
      `filteredData` a copy of them; a failure is only logged and the state
      stays as it was. */
  function Load(s: Store, p: Parsed): (s': Store)
    ensures p.Parsed? ==> s'.data == p.rows && s'.filtered == p.rows
    ensures p.LoadFailed? ==> s' == s
  {
    match p
    case Parsed(rows) => Store(rows, rows)
    case LoadFailed => s
  }

  /** The four form fields applyOperation reads, as typed or selected. */
  datatype Form = Form(primaryColumn: string, operationColumns: string, operationType: string, operation: string)

  /** The request applyOperation builds from the form: the primary column is
      trimmed but keeps its case, the operation columns are parsed, and only
      the exact words "and" and "null" select 'and' mode and the null test. */
  function SpecOf(f: Form): (spec: Spec)
    ensures IsTrimmed(spec.primary) && exists lo :: TrimmedAt(f.primaryColumn, spec.primary, lo)
    ensures |spec.columns| >= 1
    ensures forall i :: 0 <= i < |spec.columns| ==> IsTrimmed(spec.columns[i]) && NoLower(spec.columns[i])
    ensures spec.isAnd <==> f.operationType == "and"
    ensures spec.isNullOp <==> f.operation == "null"
  {
    Spec(Trim(f.primaryColumn), ParseColumns(Trim(f.operationColumns)), f.operationType == "and", f.operation == "null")
  }

  /** The form is refused when either text field is blank: empty or
      whitespace only. */
  predicate Refused(f: Form) {
    AllSpace(f.primaryColumn) || AllSpace(f.operationColumns)
  }

  /** Blank is exactly what the source tests for: a field is refused iff
      trimming leaves nothing of it. */
  lemma RefusedIffTrimmedEmpty(f: Form)
    ensures Refused(f) <==> Trim(f.primaryColumn) == [] || Trim(f.operationColumns) == []
  {
  }

  /** The state after applyOperation, and whether the user was alerted
      instead of filtering. */
  datatype Applied = Applied(store: Store, alerted: bool)

  /** applyOperation: a blank field raises the alert and changes nothing;
      otherwise `filteredData` is recomputed from `data`, and `data` itself
      is never touched. */
  function Apply(s: Store, f: Form): (r: Applied)
    ensures r.alerted <==> Refused(f)
    ensures r.alerted ==> r.store == s
    ensures r.store.data == s.data
    ensures !r.alerted ==> IsSubsequence(r.store.filtered, s.data)
    ensures !r.alerted ==> forall x :: x in r.store.filtered <==> x in s.data && Keep(SpecOf(f), x)
    ensures !r.alerted ==>
              var ix := KeptIndices(s.data, SpecOf(f));
              |r.store.filtered| == |ix| && forall k :: 0 <= k < |ix| ==> r.store.filtered[k] == s.data[ix[k]]
  {
    if Trim(f.primaryColumn) == [] || Trim(f.operationColumns) == [] then Applied(s, true)
    else
      var spec := SpecOf(f);
      FilterIsSubsequence(s.data, spec);
      FilterByIndices(s.data, spec);
      forall x ensures x in Filter(s.data, spec) <==> x in s.data && Keep(spec, x) {
        FilterMembership(s.data, spec, x);
      }
      Applied(Store(s.data, Filter(s.data, spec)), false)
  }

  /** The state invariant: the table shows a subsequence of the sheet. */
  predicate Valid(s: Store) {
    IsSubsequence(s.filtered, s.data)
  }

  /** One user-visible event of the page. */
  datatype Event = LoadEvent(p: Parsed) | ApplyEvent(f: Form)

  /** The effect of one event: only a successful load replaces `data`, and
      every event keeps the table a subsequence of the sheet. */
  function Step(s: Store, e: Event): (s': Store)
    ensures IsSuccessfulLoad(e) ==> s'.data == e.p.rows
    ensures !IsSuccessfulLoad(e) ==> s'.data == s.data
    ensures Valid(s) ==> Valid(s')
  {
    match e
    case LoadEvent(p) =>
      if p.Parsed? then SubsequenceReflexive(p.rows); Load(s, p) else Load(s, p)
    case ApplyEvent(f) => Apply(s, f).store
  }

  /** `e` is a load that delivered rows. */
  predicate IsSuccessfulLoad(e: Event) {
    e.LoadEvent? && e.p.Parsed?
  }

  /** The state after a sequence of events: `data` is what the last
      successful load delivered, or the starting `data` if there was none. */
  function Run(s: Store, events: seq<Event>): (s': Store)
    ensures (forall i :: 0 <= i < |events| ==> !IsSuccessfulLoad(events[i])) ==> s'.data == s.data
    ensures forall i ::
              0 <= i < |events| && IsSuccessfulLoad(events[i]) &&
              (forall j :: i < j < |events| ==> !IsSuccessfulLoad(events[j])) ==>
                s'.data == events[i].p.rows
    decreases |events|
  {
    if |events| == 0 then s
    else
      var r := Run(Step(s, events[0]), events[1..]);
      assert forall i :: 1 <= i < |events| ==> events[1..][i - 1] == events[i];
      r
  }

  // ---------------------------------------------------------------------
  // Properties of the store

  /** Loading sets the table to the whole sheet, so a load establishes the
      invariant. */
  lemma LoadEstablishesValid(s: Store, p: Parsed)
    requires Valid(s)
    ensures Valid(Load(s, p))
    ensures p.Parsed? ==> Load(s, p).filtered == Load(s, p).data
  {
    if p.Parsed? {
      SubsequenceReflexive(p.rows);
    }
  }

  /** Every reachable state satisfies the invariant. */
  lemma {:induction false} RunKeepsValid(s: Store, events: seq<Event>)
    requires Valid(s)
    ensures Valid(Run(s, events))
    decreases |events|
  {
    if |events| > 0 {
      var e := events[0];
      match e {
        case LoadEvent(p) => LoadEstablishesValid(s, p);
        case ApplyEvent(f) =>
      }
      RunKeepsValid(Step(s, e), events[1..]);
    }
  }

  /** From the initial state, every state the page can reach satisfies the
      invariant. */
  lemma ReachableIsValid(events: seq<Event>)
    ensures Valid(Run(Initial(), events))
  {
    RunKeepsValid(Initial(), events);
  }

  /** Only a successful load changes `data`: filter requests never do. */
  lemma {:induction false} RunWithoutLoadKeepsData(s: Store, events: seq<Event>)
    requires forall i :: 0 <= i < |events| ==> events[i].ApplyEvent?
    ensures Run(s, events).data == s.data
    decreases |events|
  {
    if |events| > 0 {
      RunWithoutLoadKeepsData(Step(s, events[0]), events[1..]);
    }
  }

  /** No chaining: a filter request is evaluated against `data`, so whatever
      request came before it makes no difference. */
  lemma ApplyForgetsPreviousFilter(s: Store, f1: Form, f2: Form)
    requires !Refused(f2)
    ensures Apply(Apply(s, f1).store, f2) == Apply(s, f2)
  {
  }

  /** Two states with the same `data` give the same result for any accepted
      request, whatever their `filteredData`. */
  lemma ApplyDependsOnlyOnData(s1: Store, s2: Store, f: Form)
    requires s1.data == s2.data && !Refused(f)
    ensures Apply(s1, f) == Apply(s2, f)
  {
  }

  /** Repeating a request changes nothing. */
  lemma ApplyIdempotent(s: Store, f: Form)
    ensures Apply(Apply(s, f).store, f).store == Apply(s, f).store
  {
  }
}

=== FILE: text.dfy ===
/**
 The string handling that applyOperation applies to the two text fields of
 the form: JavaScript's `trim`, `toUpperCase` and `split(',')`, and their
 composition into the list of operation columns.

 Whitespace and letter case are modelled on ASCII only: `IsSpace` is the
 ASCII subset of what `trim` removes and `UpperChar` maps only `a`..`z`.
 */
module Text {

  /** The ASCII characters that `String.prototype.trim` removes. */
  predicate IsSpace(c: char) {
    c == ' ' || c == '\t' || c == '\n' || c == '\r' || c == '\U{B}' || c == '\U{C}'
  }

  predicate AllSpace(s: string) {
    forall k :: 0 <= k < |s| ==> IsSpace(s[k])
  }

  /** Neither end of `s` is whitespace: what a trimmed string looks like. */
  predicate IsTrimmed(s: string) {
    s == [] || (!IsSpace(s[0]) && !IsSpace(s[|s| - 1]))
  }

  predicate IsLower(c: char) {
    'a' <= c <= 'z'
  }

  /** No character of `s` is a lower-case ASCII letter. */
  predicate NoLower(s: string) {
    forall k :: 0 <= k < |s| ==> !IsLower(s[k])
  }

  /** Drops the leading whitespace of `s`: what is left is a suffix of `s`
      that does not start with whitespace, and all that was dropped is
      whitespace. */
  function TrimStart(s: string): (r: string)
    ensures |r| <= |s| && r == s[|s| - |r|..]
    ensures forall k :: 0 <= k < |s| - |r| ==> IsSpace(s[k])
    ensures r == [] || !IsSpace(r[0])
  {
    if |s| > 0 && IsSpace(s[0]) then TrimStart(s[1..]) else s
  }

  /** Drops the trailing whitespace of `s`: what is left is a prefix of `s`
      that does not end with whitespace, and all that was dropped is
      whitespace. */
  function TrimEnd(s: string): (r: string)
    ensures |r| <= |s| && r == s[..|r|]
    ensures forall k :: |r| <= k < |s| ==> IsSpace(s[k])
    ensures r == [] || !IsSpace(r[|r| - 1])
  {
    if |s| > 0 && IsSpace(s[|s| - 1]) then TrimEnd(s[..|s| - 1]) else s
  }

  /** `lo` is where the trimmed text `r` starts inside `s`: `r` is the
      infix of `s` at `lo`, and everything of `s` around it is whitespace. */
  ghost predicate TrimmedAt(s: string, r: string, lo: int) {
    && 0 <= lo && lo + |r| <= |s|
    && r == s[lo..lo + |r|]
    && (forall k :: 0 <= k < lo ==> IsSpace(s[k]))
    && (forall k :: lo + |r| <= k < |s| ==> IsSpace(s[k]))
  }

  /** JavaScript's `trim`. */
  function Trim(s: string): (r: string)
    ensures IsTrimmed(r)
    ensures exists lo :: TrimmedAt(s, r, lo)
    ensures r == [] <==> AllSpace(s)
  {
    var t := TrimStart(s);
    var r := TrimEnd(t);
    assert TrimmedAt(s, r, |s| - |t|);
    assert r != [] ==> !IsSpace(r[0]) by {
      if r != [] {
        assert r[0] == t[0];
      }
    }
    r
  }

  function UpperChar(c: char): (u: char)
    ensures !IsLower(u)
    ensures IsLower(c) ==> u as int == c as int - 32
    ensures !IsLower(c) ==> u == c
  {
    if IsLower(c) then (c as int - 32) as char else c
  }

  /** JavaScript's `toUpperCase` on ASCII: every lower-case letter is
      replaced by its capital and nothing else changes. */
  function Upper(s: string): (r: string)
    ensures |r| == |s|
    ensures NoLower(r)
    ensures forall k :: 0 <= k < |s| && !IsLower(s[k]) ==> r[k] == s[k]
    ensures forall k :: 0 <= k < |s| && IsLower(s[k]) ==> r[k] as int == s[k] as int - 32
  {
    if |s| == 0 then [] else [UpperChar(s[0])] + Upper(s[1..])
  }

  /** Number of occurrences of `c` in `s`. */
  function Count(s: string, c: char): nat {
    if |s| == 0 then 0 else (if s[0] == c then 1 else 0) + Count(s[1..], c)
  }

  /** JavaScript's `s.split(sep)` for a one-character separator: the pieces
      between the separators, at least one of them (`"".split(",")` is
      `[""]`), and none containing the separator. */
  function Split(s: string, sep: char): (pieces: seq<string>)
    ensures |pieces| == Count(s, sep) + 1
    ensures forall i :: 0 <= i < |pieces| ==> sep !in pieces[i]
  {
    if |s| == 0 then [""]
    else
      var rest := Split(s[1..], sep);
      if s[0] == sep then [""] + rest
      else [[s[0]] + rest[0]] + rest[1..]
  }

  /** The inverse of `Split`: the pieces glued back with the separator. */
  function Join(pieces: seq<string>, sep: char): string
    requires |pieces| >= 1
  {
    if |pieces| == 1 then pieces[0] else pieces[0] + [sep] + Join(pieces[1..], sep)
  }

  /** Splitting loses nothing: joining the pieces gives back the text. */
  lemma {:induction false} JoinSplit(s: string, sep: char)
    ensures Join(Split(s, sep), sep) == s
  {
    if |s| > 0 {
      var rest := Split(s[1..], sep);
      JoinSplit(s[1..], sep);
      if s[0] == sep {
        assert Split(s, sep) == [""] + rest;
        assert ([""] + rest)[1..] == rest;
      } else {
        var pieces := Split(s, sep);
        assert pieces == [[s[0]] + rest[0]] + rest[1..];
        if |rest| == 1 {
          assert pieces == [[s[0]] + rest[0]];
        } else {
          assert pieces[1..] == rest[1..];
          assert Join(rest, sep) == rest[0] + [sep] + Join(rest[1..], sep);
          assert Join(pieces, sep) == [s[0]] + rest[0] + [sep] + Join(rest[1..], sep);
        }
      }
      assert s == [s[0]] + s[1..];
    }
  }

  /** Splitting is the only way to read back a join: pieces that contain no
      separator are recovered exactly. */
  lemma {:induction false} SplitJoin(pieces: seq<string>, sep: char)
    requires |pieces| >= 1
    requires forall i :: 0 <= i < |pieces| ==> sep !in pieces[i]
    ensures Split(Join(pieces, sep), sep) == pieces
  {
    if |pieces| == 1 {
      SplitNoSeparator(pieces[0], sep);
    } else {
      SplitJoin(pieces[1..], sep);
      SplitPrefix(pieces[0], Join(pieces[1..], sep), sep);
      assert Join(pieces, sep) == pieces[0] + ([sep] + Join(pieces[1..], sep));
      assert pieces == [pieces[0]] + pieces[1..];
    }
  }

  /** A text with no separator splits into itself alone. */
  lemma {:induction false} SplitNoSeparator(s: string, sep: char)
    requires sep !in s
    ensures Split(s, sep) == [s]
  {
    if |s| > 0 {
      assert sep !in s[1..];
      SplitNoSeparator(s[1..], sep);
      assert s == [s[0]] + s[1..];
    }
  }

  /** A separator-free head `p` in front of `sep` becomes the first piece. */
  lemma {:induction false} SplitPrefix(p: string, t: string, sep: char)
    requires sep !in p
    ensures Split(p + ([sep] + t), sep) == [p] + Split(t, sep)
  {
    var s := p + ([sep] + t);
    if |p| == 0 {
      assert s == [sep] + t;
      assert s[1..] == t;
    } else {
      assert s[1..] == p[1..] + ([sep] + t);
      assert sep !in p[1..];
      SplitPrefix(p[1..], t, sep);
      assert [p[0]] + p[1..] == p;
    }
  }

  /** The operation-columns field as applyOperation reads it: split on
      commas, then every piece trimmed and upper-cased. */
  function ParseColumns(s: string): (cols: seq<string>)
    ensures |cols| == Count(s, ',') + 1
    ensures forall i :: 0 <= i < |cols| ==> IsTrimmed(cols[i]) && NoLower(cols[i]) && ',' !in cols[i]
  {
    var pieces := Split(s, ',');
    seq(|pieces|, i requires 0 <= i < |pieces| => UpperTrimmed(pieces[i]))
  }

  /** Upper-casing changes only letters, so whitespace and commas stay
      where they were. */
  lemma UpperKeepsSymbols(s: string)
    ensures forall k :: 0 <= k < |s| ==> IsSpace(Upper(s)[k]) == IsSpace(s[k])
    ensures forall k :: 0 <= k < |s| ==> (Upper(s)[k] == ',' <==> s[k] == ',')
  {
  }

  /** Trimming only removes characters. */
  lemma TrimKeepsChars(s: string)
    ensures forall c :: c in Trim(s) ==> c in s
  {
    var t := TrimStart(s);
    assert forall c :: c in Trim(s) ==> c in t;
  }

  /** One column name of the field: trimmed, then upper-cased. */
  function UpperTrimmed(piece: string): (col: string)
    ensures IsTrimmed(col) && NoLower(col)
    ensures ',' !in piece ==> ',' !in col
    ensures col == [] <==> AllSpace(piece)
  {
    var t := Trim(piece);
    UpperKeepsSymbols(t);
    TrimKeepsChars(piece);
    Upper(t)
  }

  /** A text whose ends are not whitespace is left alone by `trim`; in
      particular trimming twice is trimming once. */
  lemma TrimOfTrimmed(s: string)
    requires IsTrimmed(s)
    ensures Trim(s) == s
  {
    assert TrimStart(s) == s;
    assert TrimEnd(s) == s;
  }

  lemma TrimIdempotent(s: string)
    ensures Trim(Trim(s)) == Trim(s)
  {
    TrimOfTrimmed(Trim(s));
  }

  /** Upper-casing a text with no lower-case letter changes nothing; in
      particular upper-casing twice is upper-casing once. */
  lemma UpperOfNoLower(s: string)
    requires NoLower(s)
    ensures Upper(s) == s
  {
  }

  lemma UpperIdempotent(s: string)
    ensures Upper(Upper(s)) == Upper(s)
  {
    UpperOfNoLower(Upper(s));
  }

  /** A field without commas names one column. */
  lemma ParseOneColumn(s: string)
    requires ',' !in s
    ensures ParseColumns(s) == [UpperTrimmed(s)]
  {
    SplitNoSeparator(s, ',');
  }

  /** A field that is already a comma-separated list of trimmed, upper-case
      names parses back to that list. */
  lemma ParseCanonical(cols: seq<string>)
    requires |cols| >= 1
    requires forall i :: 0 <= i < |cols| ==> ',' !in cols[i] && IsTrimmed(cols[i]) && NoLower(cols[i])
    ensures ParseColumns(Join(cols, ',')) == cols
  {
    SplitJoin(cols, ',');
    forall i | 0 <= i < |cols|
      ensures UpperTrimmed(cols[i]) == cols[i]
    {
      TrimOfTrimmed(cols[i]);
      UpperOfNoLower(cols[i]);
    }
  }

  /** Parsing a comma-joined field column by column: each comma-free piece,
      whatever whitespace pads it and whatever its case, becomes its trimmed,
      upper-cased self. Every field is such a join (`JoinSplit`), so this
      describes the parse of any input. */
  lemma ParseJoin(pieces: seq<string>)
    requires |pieces| >= 1
    requires forall i :: 0 <= i < |pieces| ==> ',' !in pieces[i]
    ensures |ParseColumns(Join(pieces, ','))| == |pieces|
    ensures forall i :: 0 <= i < |pieces| ==> ParseColumns(Join(pieces, ','))[i] == Upper(Trim(pieces[i]))
  {
    SplitJoin(pieces, ',');
  }
}
